=== FILE: README.md ===
# Account endpoints: guard and decision logic

This project models the REST controller of an account-management service:
registration, activation, profile update, password change, and the two-step
password reset (request, then completion with a key). The controller only
decides. It validates the new password, checks the preconditions in a fixed
order, calls the account service, and sends emails. The account lifecycle
itself (activation keys, reset keys and their expiry, registration
uniqueness, password hashing) lives in a service that is not part of this
model. Here, what that service returns for given arguments is an
uninterpreted function.

Each endpoint is a pure function. Its inputs are the request record, the
authenticated login as an `Option`, the stored users as a sequence of
`User(login, email)` records, and a `UserService` record of collaborator
functions. Its result is an `Outcome`: either `Ok(effects)` or
`Err(reason, effects)`. The effects are the ordered trace of service calls,
emails and log warnings performed before the endpoint completed or raised.

Modules:
- `Wrappers` (wrappers.dfy): `Option` (Java `Optional` or a nullable value) and `Result` (a call that returns or throws).
- `Text` (text.dfy): ASCII `ToLowerAscii`, `Lower`, `EqualsIgnoreCase`.
- `Passwords` (passwords.dfy): the length bounds and `IsPasswordLengthInvalid`.
- `Domain` (domain.dfy): users, request forms, failures, the service record, effects, outcomes.
- `UserStore` (user_store.dfy): the repository queries `findByEmailIgnoreCase` and `findByLogin` over a sequence of users, and the email-uniqueness store invariant.
- `AccountResource` (account_resource.dfy): the six endpoints and a dispatcher `Handle`.
- `AccountProperties` (account_properties.dfy): properties across endpoints and the profile-update promises.

Behaviour worth knowing before reading the contracts:
- The length check accepts both bounds, so it is inclusive at both ends.
- The profile update checks for an email conflict before it looks the current login up in the store.
- The email-conflict check compares logins ignoring case. The later store lookup by login is exact.
- A failure the service raises during registration or a password change (a wrong current password, a login or email already in use) becomes the endpoint's failure unchanged.

The bounds `MinPasswordLength = 4` and `MaxPasswordLength = 100` stand for `ManagedUserVM.PASSWORD_MIN_LENGTH` and `PASSWORD_MAX_LENGTH`. That class is not part of this model, so the values are assumed. The contract of `IsPasswordLengthInvalid` uses only `1 <= MinPasswordLength <= MaxPasswordLength`.

## Model

| member | source | states |
|---|---|---|
| `Passwords.IsPasswordLengthInvalid` | src/main/java/org/ae/account/management/web/AccountResource.java:32-38 | A password is rejected iff it is null or its length lies outside [min, max]. Both bounds are accepted, and the emptiness test is subsumed by the positive lower bound. |
| `Passwords.IsEmpty` | src/main/java/org/ae/account/management/web/AccountResource.java:34 | Null and the empty string are exactly the values `StringUtils.isEmpty` reports as empty. |
| `Text.EqualsIgnoreCase` | src/main/java/org/ae/account/management/web/AccountResource.java:111 | Case-insensitive equality holds iff the lengths agree and every position agrees after ASCII lower-casing. |
| `Text.EqualsIgnoreCaseIsEquivalence` | src/main/java/org/ae/account/management/web/AccountResource.java:111 | Case-insensitive equality is reflexive, symmetric and transitive. |
| `UserStore.FindByEmailIgnoreCase` | src/main/java/org/ae/account/management/web/AccountResource.java:110 | The lookup returns a stored user whose email matches ignoring case, namely the first one. It returns empty iff no stored email matches. |
| `UserStore.FindByLogin` | src/main/java/org/ae/account/management/web/AccountResource.java:114 | The lookup returns the first stored user with exactly that login (case-sensitive). It returns empty iff there is none. |
| `UserStore.FindByEmailIgnoreCaseUnique` | src/main/java/org/ae/account/management/web/AccountResource.java:110 | When stored emails are unique ignoring case, the lookup returns exactly the user who owns the email. |
| `AccountResource.RegisterAccount` | src/main/java/org/ae/account/management/web/AccountResource.java:44-56 | An invalid password fails with InvalidPassword and has no effects. Otherwise `registerUser` is called first. If it raises a failure (such as the email or login already in use), the endpoint fails with that same failure, and the call is the only effect. If it returns a user, the trace is exactly that call followed by one activation email to the returned user. |
| `AccountResource.ActivateAccount` | src/main/java/org/ae/account/management/web/AccountResource.java:65-70 | Activation fails iff the service returns empty, and the failure is "no user for this activation key". The service call is the only effect. |
| `AccountResource.EmailUsedByAnother` | src/main/java/org/ae/account/management/web/AccountResource.java:110-111 | A reported conflict means some stored user matches the email ignoring case and has a different login ignoring case. There is no conflict when no stored email matches, or when every matching user has the current login ignoring case. |
| `AccountResource.SaveAccount` | src/main/java/org/ae/account/management/web/AccountResource.java:106-124 | A missing login fails with no effects. EmailAlreadyUsed is raised only when some stored user with that email has another login. Success implies a login is present and stored, and the single effect is `updateUser` with the submitted fields. Every failure has no effects. |
| `AccountResource.ChangePassword` | src/main/java/org/ae/account/management/web/AccountResource.java:133-138 | An invalid new password fails with InvalidPassword before any service call. Otherwise the service call is the only effect. The endpoint succeeds iff that call raises nothing, and a failure the service raises is passed on unchanged. |
| `AccountResource.RequestPasswordReset` | src/main/java/org/ae/account/management/web/AccountResource.java:146-155 | The reset request always succeeds with one service call. A reset email is sent iff the service found a user, and only to that user. The warning about an invalid attempt is logged iff the service found no user. |
| `AccountResource.FinishPasswordReset` | src/main/java/org/ae/account/management/web/AccountResource.java:165-174 | An invalid new password fails with InvalidPassword before any key lookup. Otherwise the completion call is the only effect, and the endpoint fails iff that call returns empty, with "no user for this reset key". |
| `AccountProperties.InvalidPasswordShortCircuits` | src/main/java/org/ae/account/management/web/AccountResource.java:50-174 | For every endpoint that carries a new password, an invalid one gives InvalidPassword with an empty trace. |
| `AccountProperties.FailureSendsNoMail` | src/main/java/org/ae/account/management/web/AccountResource.java:50-174 | No endpoint sends an email on a path that ends in failure. |
| `AccountProperties.MailsGoToServiceResults` | src/main/java/org/ae/account/management/web/AccountResource.java:54-155 | An activation email goes only to the user `registerUser` returned for this request. A reset email goes only to the user `requestPasswordReset` returned for this request's address. |
| `AccountProperties.MailFollowsServiceCall` | src/main/java/org/ae/account/management/web/AccountResource.java:54-155 | Every email in a trace comes after a service call in the same trace. |
| `AccountProperties.ResetRequestRevealsNothing` | src/main/java/org/ae/account/management/web/AccountResource.java:146-155 | For a known and an unknown address, the reset request gives the same reply (success) and the same service calls. Both traces have two effects with the same first effect, the service call. They differ only in the second: the reset email to the found user for a known address, the logged warning for an unknown one. |
| `AccountProperties.EmailConflictIff` | src/main/java/org/ae/account/management/web/AccountResource.java:110-113 | Assume stored emails are unique ignoring case. Then the update fails with EmailAlreadyUsed iff a stored user matches the email ignoring case and that user's login differs from the current login ignoring case. |
| `AccountProperties.OwnerMayKeepEmail` | src/main/java/org/ae/account/management/web/AccountResource.java:110-123 | The stored owner of an email may resubmit it in any letter case, and the update succeeds. |
| `AccountProperties.SaveAccountCheckOrder` | src/main/java/org/ae/account/management/web/AccountResource.java:106-124 | The checks run in order: current login, then email conflict, then exact login lookup. The first failing check decides the failure. `updateUser` is reached iff all three pass. |

## Left out

- The account service's own behaviour is not modelled: registration uniqueness, activation-key consumption, reset-key generation and its validity window, password hashing, and which accounts may be reset. Its source is not part of this model. Its results are uninterpreted functions of the call arguments.
- `getAccount` is left out. Its only decision turns an empty result from the service's user lookup into a "User could not be found" failure, the same empty-result rule modelled for activation. The rest maps the user to a transfer object, and both the lookup and the mapping belong to code that is not part of this model.
- `isAuthenticated` is left out. It returns the transport's remote user unchanged.
- HTTP routing, response status codes and `@Valid` bean validation are framework behaviour and are left out.
- Mail delivery is recorded only as an effect. The log warning for an unknown reset address is recorded as an effect without its text.
- The current login comes from the security context. Here it is an explicit `Option` parameter.
- Races between the email lookup and `updateUser` under concurrent requests are left out, because the model is sequential.
- `activateRegistration`, `requestPasswordReset`, `completePasswordReset` and the two mail sends are assumed not to throw. The model represents their answers as an empty or present `Option`. Their code is not part of this model, and the controller catches nothing. A throw from any of them would end the request with that exception; in particular, the reset request can then fail. `RequestPasswordReset`'s promise that it always succeeds holds only under this assumption.
- `updateUser` is assumed not to fail. Its code is not part of this model, and the controller does not inspect any result from it.
- Null is modelled only for the passwords, where the controller tests for it. The other request fields are passed to collaborators unchanged and are modelled as plain strings.
- `Text.EqualsIgnoreCase`: folds ASCII letters only. Java's `equalsIgnoreCase` and the database's case-insensitive match also fold other letters.
- `Passwords.IsPasswordLengthInvalid`: counts characters. Java's `String.length` counts UTF-16 code units, so a character outside the Basic Multilingual Plane counts once here and twice in Java.
- `UserStore.FindByEmailIgnoreCase`: returns the first match. A repository query that expects a single result fails when several stored users match. For that reason the promises of the profile update are proved under the email-uniqueness store invariant.

=== FILE: account_properties.dfy ===
/** Properties that hold across the account endpoints, and the promises of
    the profile update stated against the store rather than against its
    first-match query. */
module AccountProperties {
  import opened Wrappers
  import opened Text
  import opened Passwords
  import opened Domain
  import opened UserStore
  import opened AccountResource

  /** A request whose new password fails validation is refused with
      `InvalidPassword` before any service call or email. */
  lemma InvalidPasswordShortCircuits(request: Request, ctx: Context)
    requires NewPassword(request).Some? && IsPasswordLengthInvalid(NewPassword(request).value)
    ensures Handle(request, ctx) == Err(InvalidPassword, [])
  {
  }

  /** No endpoint sends an email on a path that ends in failure. */
  lemma FailureSendsNoMail(request: Request, ctx: Context)
    ensures Handle(request, ctx).Err? ==> Mails(Handle(request, ctx).effects) == []
  {
  }

  /** Every email goes to the user a service call of the same request
      returned: the activation email to the newly registered user, the reset
      email to the user the reset request found. */
  lemma MailsGoToServiceResults(request: Request, ctx: Context)
    ensures forall e :: e in Handle(request, ctx).effects && e.ActivationEmail? ==>
              request.Register? && request.registration.password.Some?
              && ctx.service.registerUser(request.registration, request.registration.password.value) == Success(e.activated)
    ensures forall e :: e in Handle(request, ctx).effects && e.PasswordResetEmail? ==>
              request.ResetInit? && ctx.service.requestPasswordReset(request.mail) == Some(e.recipient)
  {
  }

  /** An email is only ever sent after a service call in the same request. */
  lemma MailFollowsServiceCall(request: Request, ctx: Context)
    ensures forall i :: 0 <= i < |Handle(request, ctx).effects| && Handle(request, ctx).effects[i].IsMail() ==>
              exists j :: 0 <= j < i && Handle(request, ctx).effects[j].IsServiceCall()
  {
  }

  /** The reset request answers the same whether or not the email belongs to
      an account, and makes the same service calls; only the email sent
      differs: the second and last effect is the reset email for a known
      address and the logged warning for an unknown one. */
  lemma ResetRequestRevealsNothing(mail: string, known: UserService, unknown: UserService)
    requires known.requestPasswordReset(mail).Some? && unknown.requestPasswordReset(mail).None?
    ensures RequestPasswordReset(mail, known).ToReply() == RequestPasswordReset(mail, unknown).ToReply() == Done
    ensures ServiceCalls(RequestPasswordReset(mail, known).effects)
            == ServiceCalls(RequestPasswordReset(mail, unknown).effects)
    ensures Mails(RequestPasswordReset(mail, known).effects) == [PasswordResetEmail(known.requestPasswordReset(mail).value)]
    ensures Mails(RequestPasswordReset(mail, unknown).effects) == []
    ensures |RequestPasswordReset(mail, known).effects| == |RequestPasswordReset(mail, unknown).effects| == 2
    ensures RequestPasswordReset(mail, known).effects[0] == RequestPasswordReset(mail, unknown).effects[0]
    ensures RequestPasswordReset(mail, known).effects[1] == PasswordResetEmail(known.requestPasswordReset(mail).value)
    ensures RequestPasswordReset(mail, unknown).effects[1] == UnknownResetMailWarning
  {
  }

  /** With emails unique ignoring case, the profile update refuses the email
      exactly when another login owns it: the check compares both the
      emails and the logins ignoring case. */
  lemma EmailConflictIff(profile: ProfileForm, login: string, users: seq<User>)
    requires EmailsUniqueIgnoringCase(users)
    ensures SaveAccount(profile, Some(login), users) == Err(EmailAlreadyUsed, [])
            <==> EmailOwnedByAnother(users, profile.email, login)
  {
    if EmailOwnedByAnother(users, profile.email, login) {
      var u :| u in users && EqualsIgnoreCase(u.email, profile.email) && !EqualsIgnoreCase(u.login, login);
      FindByEmailIgnoreCaseUnique(users, profile.email, u);
    }
  }

  /** The owner of an email may resubmit it, in any letter case. */
  lemma OwnerMayKeepEmail(profile: ProfileForm, owner: User, users: seq<User>)
    requires EmailsUniqueIgnoringCase(users)
    requires owner in users && EqualsIgnoreCase(owner.email, profile.email)
    ensures SaveAccount(profile, Some(owner.login), users)
            == Ok([UpdateUserCall(profile.firstName, profile.lastName, profile.email, profile.langKey)])
  {
    FindByEmailIgnoreCaseUnique(users, profile.email, owner);
    assert FindByLogin(users, owner.login).Some?;
  }

  /** The profile update checks, in order, for a current login, for an email
      owned by another login and for a stored user with exactly that login;
      the first check that fails decides the answer, and the update is
      reached exactly when all three pass. */
  lemma SaveAccountCheckOrder(profile: ProfileForm, currentLogin: Option<string>, users: seq<User>)
    requires EmailsUniqueIgnoringCase(users)
    ensures currentLogin.None? ==> SaveAccount(profile, currentLogin, users) == Err(CurrentLoginNotFound, [])
    ensures currentLogin.Some? && EmailOwnedByAnother(users, profile.email, currentLogin.value) ==>
              SaveAccount(profile, currentLogin, users) == Err(EmailAlreadyUsed, [])
    ensures currentLogin.Some? && !EmailOwnedByAnother(users, profile.email, currentLogin.value)
            && (forall u :: u in users ==> u.login != currentLogin.value) ==>
              SaveAccount(profile, currentLogin, users) == Err(UserNotFound, [])
    ensures (exists e :: e in SaveAccount(profile, currentLogin, users).effects && e.UpdateUserCall?) <==>
              currentLogin.Some?
              && !EmailOwnedByAnother(users, profile.email, currentLogin.value)
              && (exists u :: u in users && u.login == currentLogin.value)
  {
    if currentLogin.Some? {
      var login := currentLogin.value;
      EmailConflictIff(profile, login, users);
      var r := SaveAccount(profile, currentLogin, users);
      if r.Ok? {
        assert r.effects[0] in r.effects;
      }
    }
  }
}

=== FILE: account_resource.dfy ===
/** The account REST endpoints as pure functions. Each takes the request,
    the collaborators it consults, and returns the effects it performed
    and whether it completed or failed. */
module AccountResource {
  import opened Wrappers
  import opened Text
  import opened Passwords
  import opened Domain
  import opened UserStore

  /** `POST /register`: validate the password, register the user, then send
      the activation email to the user the service created. */
  function RegisterAccount(form: RegistrationForm, service: UserService): (r: Outcome)
    ensures IsPasswordLengthInvalid(form.password) ==> r == Err(InvalidPassword, [])
    ensures !IsPasswordLengthInvalid(form.password) ==>
              |r.effects| > 0 && r.effects[0] == RegisterUserCall(form, form.password.value)
    ensures r.Ok? <==>
              !IsPasswordLengthInvalid(form.password)
              && service.registerUser(form, form.password.value).Success?
    ensures !IsPasswordLengthInvalid(form.password) && service.registerUser(form, form.password.value).Failure? ==>
              r == Err(service.registerUser(form, form.password.value).error, [RegisterUserCall(form, form.password.value)])
    ensures r.Ok? ==>
              r.effects == [RegisterUserCall(form, form.password.value),
                            ActivationEmail(service.registerUser(form, form.password.value).value)]
              && Mails(r.effects) == [ActivationEmail(service.registerUser(form, form.password.value).value)]
    ensures r.Err? ==> Mails(r.effects) == [] && |r.effects| <= 1
  {
    if IsPasswordLengthInvalid(form.password) then Err(InvalidPassword, [])
    else
      var password := form.password.value;
      var call := RegisterUserCall(form, password);
      match service.registerUser(form, password)
      case Failure(e) => Err(e, [call])
      case Success(user) =>
        assert Mails([call, ActivationEmail(user)]) == [ActivationEmail(user)] by {
          assert [call, ActivationEmail(user)][1..] == [ActivationEmail(user)];
        }
        Ok([call, ActivationEmail(user)])
  }

  /** `GET /activate`: an empty answer from the service is a failure; the
      activation call is the only effect either way. */
  function ActivateAccount(key: string, service: UserService): (r: Outcome)
    ensures r.Err? <==> service.activateRegistration(key).None?
    ensures r.Err? ==> r.reason == NoUserForActivationKey
    ensures r.effects == [ActivateRegistrationCall(key)]
  {
    var call := ActivateRegistrationCall(key);
    if service.activateRegistration(key).None? then Err(NoUserForActivationKey, [call])
    else Ok([call])
  }

  /** The check `saveAccount` runs before updating: the user holding the
      submitted email (ignoring case), if any, belongs to someone else. */
  function EmailUsedByAnother(users: seq<User>, email: string, login: string): (used: bool)
    ensures used ==> EmailOwnedByAnother(users, email, login)
    ensures (forall u :: u in users ==> !EqualsIgnoreCase(u.email, email)) ==> !used
    ensures (forall u :: u in users && EqualsIgnoreCase(u.email, email) ==> EqualsIgnoreCase(u.login, login)) ==> !used
  {
    var existing := FindByEmailIgnoreCase(users, email);
    existing.Some? && !EqualsIgnoreCase(existing.value.login, login)
  }

  /** `POST /account`: require a current login, refuse an email owned by
      another login, require the current login to be stored, and only then
      update the profile. */
  function SaveAccount(profile: ProfileForm, currentLogin: Option<string>, users: seq<User>): (r: Outcome)
    ensures currentLogin.None? ==> r == Err(CurrentLoginNotFound, [])
    ensures r == Err(EmailAlreadyUsed, []) ==> EmailOwnedByAnother(users, profile.email, currentLogin.value)
    ensures r.Ok? ==>
              currentLogin.Some?
              && (exists u :: u in users && u.login == currentLogin.value)
              && r.effects == [UpdateUserCall(profile.firstName, profile.lastName, profile.email, profile.langKey)]
    ensures r.Err? ==> r.effects == []
  {
    match currentLogin
    case None => Err(CurrentLoginNotFound, [])
    case Some(login) =>
      if EmailUsedByAnother(users, profile.email, login) then Err(EmailAlreadyUsed, [])
      else if FindByLogin(users, login).None? then Err(UserNotFound, [])
      else Ok([UpdateUserCall(profile.firstName, profile.lastName, profile.email, profile.langKey)])
  }

  /** `POST /account/change-password`: validate the new password before the
      service is asked to change anything; a failure the service raises is
      passed on. */
  function ChangePassword(change: PasswordChange, service: UserService): (r: Outcome)
    ensures IsPasswordLengthInvalid(change.newPassword) ==> r == Err(InvalidPassword, [])
    ensures !IsPasswordLengthInvalid(change.newPassword) ==>
              r.effects == [ChangePasswordCall(change.currentPassword, change.newPassword.value)]
              && (r.Ok? <==> service.changePassword(change.currentPassword, change.newPassword.value).None?)
    ensures !IsPasswordLengthInvalid(change.newPassword)
            && service.changePassword(change.currentPassword, change.newPassword.value).Some? ==>
              r.Err? && r.reason == service.changePassword(change.currentPassword, change.newPassword.value).value
  {
    if IsPasswordLengthInvalid(change.newPassword) then Err(InvalidPassword, [])
    else
      var newPassword := change.newPassword.value;
      var call := ChangePasswordCall(change.currentPassword, newPassword);
      match service.changePassword(change.currentPassword, newPassword)
      case Some(e) => Err(e, [call])
      case None => Ok([call])
  }

  /** `POST /account/reset-password/init`: always succeeds; the reset email
      goes out exactly when the service found a user, and only to that user. */
  function RequestPasswordReset(mail: string, service: UserService): (r: Outcome)
    ensures r.Ok?
    ensures ServiceCalls(r.effects) == [RequestPasswordResetCall(mail)]
    ensures service.requestPasswordReset(mail).Some? ==>
              Mails(r.effects) == [PasswordResetEmail(service.requestPasswordReset(mail).value)]
    ensures service.requestPasswordReset(mail).None? ==> Mails(r.effects) == []
    ensures UnknownResetMailWarning in r.effects <==> service.requestPasswordReset(mail).None?
  {
    var call := RequestPasswordResetCall(mail);
    var sequel := match service.requestPasswordReset(mail)
      case Some(user) => PasswordResetEmail(user)
      case None => UnknownResetMailWarning;
    assert [call, sequel][1..] == [sequel];
    Ok([call, sequel])
  }

  /** `POST /account/reset-password/finish`: validate the new password
      before any key lookup; an empty answer from the service is a failure. */
  function FinishPasswordReset(request: KeyAndPassword, service: UserService): (r: Outcome)
    ensures IsPasswordLengthInvalid(request.newPassword) ==> r == Err(InvalidPassword, [])
    ensures !IsPasswordLengthInvalid(request.newPassword) ==>
              r.effects == [CompletePasswordResetCall(request.newPassword.value, request.key)]
              && (r.Err? <==> service.completePasswordReset(request.newPassword.value, request.key).None?)
              && (r.Err? ==> r.reason == NoUserForResetKey)
  {
    if IsPasswordLengthInvalid(request.newPassword) then Err(InvalidPassword, [])
    else
      var newPassword := request.newPassword.value;
      var call := CompletePasswordResetCall(newPassword, request.key);
      if service.completePasswordReset(newPassword, request.key).None? then Err(NoUserForResetKey, [call])
      else Ok([call])
  }

  /** One request to any of the modelled endpoints. */
  datatype Request =
    | Register(registration: RegistrationForm)
    | Activate(key: string)
    | Save(profile: ProfileForm)
    | Change(change: PasswordChange)
    | ResetInit(mail: string)
    | ResetFinish(keyAndPassword: KeyAndPassword)

  /** Everything outside the request an endpoint may consult: the
      authenticated login, the stored users and the account service. */
  datatype Context = Context(currentLogin: Option<string>, users: seq<User>, service: UserService)

  /** Routes a request to its endpoint. */
  function Handle(request: Request, ctx: Context): Outcome {
    match request
    case Register(form) => RegisterAccount(form, ctx.service)
    case Activate(key) => ActivateAccount(key, ctx.service)
    case Save(profile) => SaveAccount(profile, ctx.currentLogin, ctx.users)
    case Change(change) => ChangePassword(change, ctx.service)
    case ResetInit(mail) => RequestPasswordReset(mail, ctx.service)
    case ResetFinish(kp) => FinishPasswordReset(kp, ctx.service)
  }

  /** The new password a request carries, for the three endpoints that
      validate one. */
  function NewPassword(request: Request): Option<Option<string>> {
    match request
    case Register(form) => Some(form.password)
    case Change(change) => Some(change.newPassword)
    case ResetFinish(kp) => Some(kp.newPassword)
    case _ => None
  }
}

=== FILE: domain.dfy ===
/** The records the account endpoints receive and consult, the collaborators
    they call, and the effects and failures they produce. */
module Domain {
  import opened Wrappers

  /** A stored account as the repository returns it; only the login and the
      email take part in the endpoints' decisions. */
  datatype User = User(login: string, email: string)

  /** The registration form (`ManagedUserVM`); its password may be null. */
  datatype RegistrationForm = RegistrationForm(
    login: string,
    email: string,
    firstName: string,
    lastName: string,
    langKey: string,
    password: Option<string>)

  /** The profile fields an authenticated user submits (`AdminUserDTO`). */
  datatype ProfileForm = ProfileForm(firstName: string, lastName: string, email: string, langKey: string)

  /** `PasswordChangeDTO`: the current and the requested password. */
  datatype PasswordChange = PasswordChange(currentPassword: string, newPassword: Option<string>)

  /** `KeyAndPasswordVM`: a reset key and the requested password. */
  datatype KeyAndPassword = KeyAndPassword(key: string, newPassword: Option<string>)

  /** The typed failures an endpoint ends with. The last four are the
      controller's own `AccountResourceException`, one per message. */
  datatype Reason =
    | InvalidPassword
    | EmailAlreadyUsed
    | LoginAlreadyUsed
    | CurrentLoginNotFound
    | UserNotFound
    | NoUserForActivationKey
    | NoUserForResetKey

  /** The account service the controller delegates to, as uninterpreted
      total functions: whatever each call returns (or throws) for its
      arguments. `updateUser` returns nothing and is only recorded. */
  datatype UserService = UserService(
    registerUser: (RegistrationForm, string) -> Result<User, Reason>,
    activateRegistration: string -> Option<User>,
    changePassword: (string, string) -> Option<Reason>,
    requestPasswordReset: string -> Option<User>,
    completePasswordReset: (string, string) -> Option<User>)

  /** Something an endpoint did that the outside world can notice: a call
      into the account service, an email handed to the mail service, or a
      warning written to the log. */
  datatype Effect =
    | RegisterUserCall(form: RegistrationForm, password: string)
    | ActivationEmail(activated: User)
    | ActivateRegistrationCall(activationKey: string)
    | UpdateUserCall(firstName: string, lastName: string, email: string, langKey: string)
    | ChangePasswordCall(currentPassword: string, newPassword: string)
    | RequestPasswordResetCall(mail: string)
    | PasswordResetEmail(recipient: User)
    | UnknownResetMailWarning
    | CompletePasswordResetCall(resetPassword: string, resetKey: string)
  {
    predicate IsMail() {
      ActivationEmail? || PasswordResetEmail?
    }

    predicate IsServiceCall() {
      !IsMail() && !UnknownResetMailWarning?
    }
  }

  /** What an endpoint answers: success, or the failure it raised. */
  datatype Reply = Done | Refused(reason: Reason)

  /** The result of one request: the effects performed, in order, and
      whether the endpoint completed or raised a failure after them. */
  datatype Outcome = Ok(effects: seq<Effect>) | Err(reason: Reason, effects: seq<Effect>)
  {
    /** The part of the outcome the caller sees. */
    function ToReply(): Reply {
      if Ok? then Done else Refused(reason)
    }
  }

  /** The account-service calls of a trace. */
  function ServiceCalls(effects: seq<Effect>): (calls: seq<Effect>)
    ensures |calls| <= |effects|
    ensures forall e :: e in calls <==> e in effects && e.IsServiceCall()
  {
    if |effects| == 0 then []
    else (if effects[0].IsServiceCall() then [effects[0]] else []) + ServiceCalls(effects[1..])
  }

  /** The emails of a trace. */
  function Mails(effects: seq<Effect>): (mails: seq<Effect>)
    ensures |mails| <= |effects|
    ensures forall e :: e in mails <==> e in effects && e.IsMail()
  {
    if |effects| == 0 then []
    else (if effects[0].IsMail() then [effects[0]] else []) + Mails(effects[1..])
  }
}

=== FILE: passwords.dfy ===
/** The password-length validator shared by registration, password change
    and reset completion. */
module Passwords {
  import opened Wrappers

  /** `ManagedUserVM.PASSWORD_MIN_LENGTH`. */
  const MinPasswordLength: nat := 4

  /** `ManagedUserVM.PASSWORD_MAX_LENGTH`. */
  const MaxPasswordLength: nat := 100

  /** `StringUtils.isEmpty`: null or of length zero. */
  function IsEmpty(s: Option<string>): (empty: bool)
    ensures empty <==> s == None || s == Some("")
  {
    s.None? || |s.value| == 0
  }

  /** A password is rejected when it is null or empty, or its length lies
      outside the bounds. Both bounds are themselves accepted, and since the
      lower bound is positive the emptiness test never decides anything the
      bounds do not. */
  function IsPasswordLengthInvalid(password: Option<string>): (invalid: bool)
    ensures invalid <==> !(password.Some? && MinPasswordLength <= |password.value| <= MaxPasswordLength)
  {
    IsEmpty(password)
    || |password.value| < MinPasswordLength
    || |password.value| > MaxPasswordLength
  }
}

=== FILE: text.dfy ===
/** ASCII case folding, the model of `String.equalsIgnoreCase` and of the
    case-insensitive repository lookups. */
module Text {

  predicate IsAsciiUpper(c: char) {
    'A' <= c <= 'Z'
  }

  /** Lower-cases an ASCII capital letter and leaves every other character alone. */
  function ToLowerAscii(c: char): (r: char)
    ensures !IsAsciiUpper(r)
    ensures !IsAsciiUpper(c) ==> r == c
    ensures IsAsciiUpper(c) ==> 'a' <= r <= 'z' && r != c
  {
    if IsAsciiUpper(c) then (c as int + ('a' as int - 'A' as int)) as char else c
  }

  /** The lower-case form of a string, character by character. */
  function Lower(s: string): (r: string)
    ensures |r| == |s|
    ensures forall i :: 0 <= i < |s| ==> r[i] == ToLowerAscii(s[i])
  {
    if |s| == 0 then [] else [ToLowerAscii(s[0])] + Lower(s[1..])
  }

  /** `a.equalsIgnoreCase(b)`, restricted to ASCII case folding: the two
      strings have the same length and agree, position by position, once
      lower-cased. */
  function EqualsIgnoreCase(a: string, b: string): (equal: bool)
    ensures equal <==>
              |a| == |b| && forall i :: 0 <= i < |a| ==> ToLowerAscii(a[i]) == ToLowerAscii(b[i])
  {
    Lower(a) == Lower(b)
  }

  /** Ignoring case is an equivalence: reflexive, symmetric and transitive. */
  lemma EqualsIgnoreCaseIsEquivalence(a: string, b: string, c: string)
    ensures EqualsIgnoreCase(a, a)
    ensures EqualsIgnoreCase(a, b) <==> EqualsIgnoreCase(b, a)
    ensures EqualsIgnoreCase(a, b) && EqualsIgnoreCase(b, c) ==> EqualsIgnoreCase(a, c)
  {
  }
}

=== FILE: user_store.dfy ===
/** The user repository as a sequence of stored users, and the two queries
    the profile update runs against it. */
module UserStore {
  import opened Wrappers
  import opened Text
  import opened Domain

  /** `findByEmailIgnoreCase`: the first stored user whose email equals
      `email` ignoring case, if any. */
  function FindByEmailIgnoreCase(users: seq<User>, email: string): (found: Option<User>)
    ensures found.Some? ==> found.value in users && EqualsIgnoreCase(found.value.email, email)
    ensures found.None? <==> forall u :: u in users ==> !EqualsIgnoreCase(u.email, email)
    ensures found.Some? ==>
              exists i :: 0 <= i < |users| && users[i] == found.value
                && forall j :: 0 <= j < i ==> !EqualsIgnoreCase(users[j].email, email)
  {
    if |users| == 0 then None
    else if EqualsIgnoreCase(users[0].email, email) then Some(users[0])
    else
      var rest := FindByEmailIgnoreCase(users[1..], email);
      assert forall u :: u in users ==> u == users[0] || u in users[1..];
      if rest.Some? then
        var i :| 0 <= i < |users[1..]| && users[1..][i] == rest.value
                 && forall j :: 0 <= j < i ==> !EqualsIgnoreCase(users[1..][j].email, email);
        assert users[i + 1] == rest.value;
        assert forall j :: 0 <= j < i + 1 ==> !EqualsIgnoreCase(users[j].email, email) by {
          forall j | 0 <= j < i + 1 ensures !EqualsIgnoreCase(users[j].email, email) {
            if j > 0 { assert users[j] == users[1..][j - 1]; }
          }
        }
        rest
      else rest
  }

  /** `findByLogin`: the first stored user whose login equals `login`
      exactly (case-sensitive), if any. */
  function FindByLogin(users: seq<User>, login: string): (found: Option<User>)
    ensures found.Some? ==> found.value in users && found.value.login == login
    ensures found.None? <==> forall u :: u in users ==> u.login != login
    ensures found.Some? ==>
              exists i :: 0 <= i < |users| && users[i] == found.value
                && forall j :: 0 <= j < i ==> users[j].login != login
  {
    if |users| == 0 then None
    else if users[0].login == login then Some(users[0])
    else
      var rest := FindByLogin(users[1..], login);
      assert forall u :: u in users ==> u == users[0] || u in users[1..];
      if rest.Some? then
        var i :| 0 <= i < |users[1..]| && users[1..][i] == rest.value
                 && forall j :: 0 <= j < i ==> users[1..][j].login != login;
        assert users[i + 1] == rest.value;
        assert forall j :: 0 <= j < i + 1 ==> users[j].login != login by {
          forall j | 0 <= j < i + 1 ensures users[j].login != login {
            if j > 0 { assert users[j] == users[1..][j - 1]; }
          }
        }
        rest
      else rest
  }

  /** Some stored user whose login differs from `login` owns `email`,
      ignoring case in both comparisons. */
  ghost predicate EmailOwnedByAnother(users: seq<User>, email: string, login: string) {
    exists u :: u in users && EqualsIgnoreCase(u.email, email) && !EqualsIgnoreCase(u.login, login)
  }

  /** The store invariant the unique constraint on email keeps: no two
      stored users share an email, ignoring case. */
  ghost predicate EmailsUniqueIgnoringCase(users: seq<User>) {
    forall i, j :: 0 <= i < |users| && 0 <= j < |users| && i != j ==>
      !EqualsIgnoreCase(users[i].email, users[j].email)
  }

  /** When emails are unique ignoring case, the lookup finds exactly the one
      user whose email matches. */
  lemma FindByEmailIgnoreCaseUnique(users: seq<User>, email: string, u: User)
    requires EmailsUniqueIgnoringCase(users)
    requires u in users && EqualsIgnoreCase(u.email, email)
    ensures FindByEmailIgnoreCase(users, email) == Some(u)
  {
    var found := FindByEmailIgnoreCase(users, email);
    var v := found.value;
    var i :| 0 <= i < |users| && users[i] == u;
    var j :| 0 <= j < |users| && users[j] == v;
    EqualsIgnoreCaseIsEquivalence(u.email, email, v.email);
    EqualsIgnoreCaseIsEquivalence(email, v.email, u.email);
    assert EqualsIgnoreCase(users[i].email, users[j].email);
    assert i == j;
  }
}

=== FILE: wrappers.dfy ===
/** Optional values and service results, the model's stand-ins for
    `java.util.Optional` and for a call that either returns or throws. */
module Wrappers {

  /** `Optional<T>`, or a Java reference that may be null. */
  datatype Option<+T> = None | Some(value: T)

  /** The result of a collaborator call that either returns a value or
      throws one of the typed failures. */
  datatype Result<+R, +E> = Success(value: R) | Failure(error: E)
}
